=== FILE: README.md ===
# Two-ball momentum simulator, modelled in Dafny

This project models the `MomentumSimulator` class of `momentum_simulation.py`. The class
is a fixed-step simulation of a white (cue) ball and a black ball on a 12 x 6 table.

The constructor places the white ball at (1, 3) with a launch velocity and the black ball
at rest at (3, 3), and stores the target with its y-coordinate flipped (6 - y). Each step
of `simulate`:

- damps both velocities by the factor (1 - friction), snapping a velocity to exactly
  (0, 0) when both damped components are below the minimum speed;
- moves both centres by velocity / 60;
- calls the collision response when the centres are closer than twice the radius 0.15.
  The response exchanges the balls' normal velocity components, scaled by the
  restitution coefficient, and keeps their tangential components;
- records both positions, and leaves the loop once both velocities are exactly zero.

The model is an exact-real abstraction, written as pure functions over immutable state:

- `RealArith` holds named products (`Mul`, `Sq`), `Abs` and `Pow`, with the sign facts
  the proofs use.
- `Vectors` holds planar vectors, dot products, the 90-degree rotation `Perp`,
  Lagrange's identity, and the fact that `d` and `Perp(d)` form a basis.
- `MomentumSimulator` holds the state, the constructor `Init`, `Friction`, `Move`,
  `Overlapping`, the collision response and `Step`. The loop of `simulate` appears twice.
  `Simulate` is a recursive definition: the starting positions followed by `RunFrom`, which
  is written over any step function. `Iterate` (k steps, ignoring the exit test) is the
  reference the run laws compare against. `RunLoop` is the loop as written, with its
  `break`, and `SimulateLoop` runs it with `Step`.
- `FrictionLaws`, `CollisionLaws`, `RunLaws` and `SetupLaws` hold the properties.
- `Scenarios` holds concrete runs computed exactly.

The model abstracts three things:

- **Square roots.**
  - The overlap test compares the squared distance with (2 * 0.15)^2.
  - The collision response `Resolve` divides by the squared length of the
    centre-to-centre vector instead of normalising it.
  - `CollisionLaws.ResolveMatchesUnitNormal` proves that this is the code's unit-normal
    computation (`ResolveAlong`, lines 30-44) for every positive square root of |d|^2.
    That root is the value `math.sqrt` returns whenever the centres differ; when they
    coincide the code raises.
  - `RunLaws.OverlapMatchesDistance` proves the overlap test equal to the code's
    `distance < 2 * radius` for every non-negative distance whose square is the squared
    distance (the value `math.hypot` returns).
- **Trigonometry.** The cosine and sine of the launch angle are inputs (`Heading`).
- **Division by zero.** When the two centres coincide at a collision, the code divides by
  zero and Python raises `ZeroDivisionError`. The model returns
  `Failure(CoincidentCentres)` from the step and from the whole run.
  `Scenarios.FastShotFails` shows the fault is reachable from the constructor: a shot at
  speed 120 along the x-axis, without friction, moves the white ball from x = 1 by
  120 / 60 = 2, exactly onto the black centre. `Scenarios.CoincidentCentresFail` shows
  the same fault from a hand-placed state.

## Model

| member | source | states |
|---|---|---|
| `MomentumSimulator.Init` | momentum_simulation.py:6-21 | white ball at (1, 3) with the launch velocity, black ball at rest at (3, 3), the stored target flips back to the caller's target, and the configuration is kept |
| `MomentumSimulator.ResolveAlong` | momentum_simulation.py:30-44 | for a unit normal n with tangent (-n.y, n.x): each ball's new normal component is restitution times the other ball's old one, and each tangential component is unchanged |
| `MomentumSimulator.Resolve` | momentum_simulation.py:23-44 | the same exchange, stated along the unnormalised centre-to-centre vector, so it needs no square root |
| `MomentumSimulator.Step` | momentum_simulation.py:58-70 | a successful step never changes the configuration or the target |
| `MomentumSimulator.Friction` | momentum_simulation.py:46-52 | `apply_friction` on one velocity; specified by `FrictionLaws.FrictionSnapRule`, with the bounds `FrictionNeverSpeedsUp`, `FrictionSlowsDown` and `FrictionEventuallyRests` |
| `MomentumSimulator.Move` | momentum_simulation.py:62-65 | one ball's Euler update; specified by `RunLaws.MoveByVelocity` |
| `RunLaws.MoveByVelocity` | momentum_simulation.py:62-65 | a move keeps the velocity, and 60 times the displacement is exactly the velocity |
| `MomentumSimulator.Advance` | momentum_simulation.py:59-65 | friction on both velocities, then both moves; specified by `RunLaws.AdvanceMovesByDamped` |
| `RunLaws.AdvanceMovesByDamped` | momentum_simulation.py:59-65 | each new velocity is `apply_friction` of the old one, 60 times each ball's displacement is its new (damped) velocity, and the configuration and target are kept |
| `MomentumSimulator.Overlapping` | momentum_simulation.py:67-69 | the overlap test; `RunLaws.OverlapMatchesDistance` proves it equal to `distance < 2 * radius` for the true distance |
| `MomentumSimulator.Collide` | momentum_simulation.py:23-44 | `calculate_new_velocities` on the whole state; specified by `RunLaws.CollideFailsIffCoincident` |
| `RunLaws.CollideFailsIffCoincident` | momentum_simulation.py:23-44 | the response fails if and only if the centres coincide (the division by zero at line 28); otherwise it leaves both positions alone and gives the velocities of `Resolve` along black minus white |
| `MomentumSimulator.AtRest` | momentum_simulation.py:75-76 | the loop's exit test; its role is stated by `RunLaws.RunFromRecords` (a run stops at the first state at rest) and `RunLaws.RestIsFixedPoint` |
| `MomentumSimulator.Budget` | momentum_simulation.py:58 | the number of iterations `range(steps)` allows; `RunLaws.NoStepsRecordsStart` covers zero and negative counts |
| `MomentumSimulator.RunFrom` | momentum_simulation.py:58-76 | the loop from a given state with a given budget; specified by `RunLaws.RunFromRecords`, `RunLaws.RunFromFailure` and `RunLaws.RunFromFailsAt` |
| `MomentumSimulator.Simulate` | momentum_simulation.py:54-78 | `simulate(steps)`; specified by `RunLaws.SimulateRecords`, `RunLaws.SimulateFailsIff` and `RunLaws.SimulateNeverGainsEnergy` |
| `MomentumSimulator.RunLoop` | momentum_simulation.py:54-78 | the loop as written, for any loop body (append after every step, `break` once both balls are at rest), computes exactly the recursive `SimulateWith` |
| `MomentumSimulator.SimulateLoop` | momentum_simulation.py:54-78 | `RunLoop` with the simulator's step computes exactly the recursive `Simulate` |
| `FrictionLaws.FrictionSnapRule` | momentum_simulation.py:46-52 | both damped components below the minimum speed gives exactly (0, 0); otherwise each component is exactly (1 - friction) times the old one |
| `FrictionLaws.FrictionSnapIsPerAxis` | momentum_simulation.py:50-52 | with a positive minimum speed, when only one damped component is below it, nothing is zeroed and the velocity stays non-zero |
| `FrictionLaws.FrictionSnapIsNotByLength` | momentum_simulation.py:50-52 | a velocity longer than the minimum speed is still snapped to rest when each component is below it |
| `FrictionLaws.FrictionOfRest` | momentum_simulation.py:46-52 | a velocity at rest stays at rest |
| `FrictionLaws.FrictionNeverSpeedsUp` | momentum_simulation.py:47-48 | with friction in [0, 1] no component's magnitude increases |
| `FrictionLaws.FrictionSlowsDown` | momentum_simulation.py:46-52 | with friction in (0, 1] every non-zero velocity gets strictly shorter |
| `FrictionLaws.FrictionNormAtMost` | momentum_simulation.py:46-52 | with friction in [0, 1] no velocity gets longer |
| `FrictionLaws.FrictionNShape` | momentum_simulation.py:59-60 | after n applications a velocity is either exactly zero or exactly (1 - friction)^n times the original |
| `FrictionLaws.FrictionNRests` | momentum_simulation.py:46-52 | once (1 - friction)^n times each original component is below the minimum speed, n applications give exactly zero |
| `FrictionLaws.FrictionEventuallyRests` | momentum_simulation.py:75-76 | with friction in (0, 1] and a positive minimum speed, a ball left alone comes exactly to rest after finitely many steps, so the loop's exit test can fire |
| `CollisionLaws.ResolveMatchesUnitNormal` | momentum_simulation.py:27-44 | for any norm > 0 with norm^2 = dx^2 + dy^2, (dx, dy) / norm is a unit vector and the code's unit-normal response along it equals `Resolve` |
| `CollisionLaws.NormalSum` | momentum_simulation.py:38-39 | the sum of the normal components is scaled by the restitution coefficient; with restitution 1 the normal components are exactly exchanged |
| `CollisionLaws.RestitutionLaw` | momentum_simulation.py:38-39 | Newton's law of restitution: the balls separate along the normal at restitution times their approach speed |
| `CollisionLaws.MomentumConservedIff` | momentum_simulation.py:38-44 | total momentum is kept if and only if restitution is 1 or the summed normal velocity is zero |
| `CollisionLaws.EnergyBalance` | momentum_simulation.py:33-44 | the response removes the fraction 1 - e^2 of the normal kinetic energy and keeps the tangential energy |
| `CollisionLaws.EnergyNeverGained` | momentum_simulation.py:38-44 | with restitution in [-1, 1] the collision never increases the kinetic energy |
| `CollisionLaws.EnergyKeptIff` | momentum_simulation.py:38-44 | kinetic energy is kept if and only if e^2 = 1 or neither ball moves along the normal |
| `CollisionLaws.ResolveSymmetric` | momentum_simulation.py:24-44 | swapping the two balls (which reverses the normal) swaps the two new velocities |
| `CollisionLaws.HeadOnHitOnRestingBall` | momentum_simulation.py:33-44 | a head-on hit on a ball at rest stops the moving ball and sends the other off with restitution times its velocity |
| `RunLaws.OverlapMatchesDistance` | momentum_simulation.py:67-69 | for the true centre distance, `distance < 2 * radius` holds if and only if the squared-distance test holds |
| `RunLaws.StepFailsIffCoincident` | momentum_simulation.py:24-29 | a step fails if and only if the moved centres coincide; coincident balls always count as overlapping |
| `RunLaws.StepOrder` | momentum_simulation.py:59-70 | friction and movement come first; the response is applied exactly when the moved balls overlap, and it never changes positions |
| `RunLaws.ResolveOfRest` | momentum_simulation.py:33-44 | two balls at rest stay at rest through a collision |
| `RunLaws.RestIsFixedPoint` | momentum_simulation.py:58-76 | a state at rest with distinct centres is unchanged by a step |
| `RunLaws.StepNeverGainsEnergy` | momentum_simulation.py:59-70 | with friction in [0, 1] and restitution in [-1, 1], a step never increases the kinetic energy |
| `RunLaws.StepKeepsMomentum` | momentum_simulation.py:59-70 | with friction 0 and restitution 1, when neither velocity is snapped (each is at rest already or has a component at or above the minimum speed), a step keeps the total momentum |
| `RunLaws.IterateKeeps` | momentum_simulation.py:58-76 | any property every step preserves holds after any number of steps |
| `RunLaws.StepsKeepConfig` | momentum_simulation.py:58-76 | no number of steps changes the configuration or the target |
| `RunLaws.StepsNeverGainEnergy` | momentum_simulation.py:58-70 | under the coefficient ranges above, the kinetic energy never grows along a run |
| `RunLaws.RunFromRecords` | momentum_simulation.py:58-76 | the recorded positions after steps 1, 2, ... in lock-step: equal lengths, at most the budget, a shorter run ends at rest, and no earlier state was at rest |
| `RunLaws.RunFromFailure` | momentum_simulation.py:58-70 | a failing run has a step k < budget that fails, reached through k successful steps none of which ended at rest |
| `RunLaws.RunFromFailsAt` | momentum_simulation.py:58-76 | conversely, such a failing step makes the run fail |
| `RunLaws.SimulateWithRecords` | momentum_simulation.py:54-78 | for any loop body: the trajectories have equal length between 1 and max(steps, 0) + 1, start with the initial positions, hold the positions after i steps at index i, are shorter only when both balls ended at rest, and stop at the first state at rest |
| `RunLaws.SimulateRecords` | momentum_simulation.py:54-78 | the same trajectory facts for `simulate` itself, whose final state keeps the configuration and the target |
| `RunLaws.SimulateFailsIff` | momentum_simulation.py:54-78 | `simulate` fails if and only if some step within the budget fails before the balls have come to rest |
| `RunLaws.SimulateNeverGainsEnergy` | momentum_simulation.py:54-78 | with friction in [0, 1] and restitution in [-1, 1], the final kinetic energy is at most the initial one |
| `RunLaws.NoStepsRecordsStart` | momentum_simulation.py:55-58 | with zero or negative steps only the starting positions are recorded |
| `RunLaws.StillShotStopsAfterOneStep` | momentum_simulation.py:58-76 | a shot with speed 0 records the start twice and stops |
| `SetupLaws.FlipYInvolution` | momentum_simulation.py:12 | flipping the target twice gives it back; only targets on the line y = 3 are unchanged |
| `SetupLaws.LaunchSpeed` | momentum_simulation.py:14-15 | for cos^2 + sin^2 = 1 the launch velocity has squared length speed^2 |
| `SetupLaws.LaunchDirection` | momentum_simulation.py:14-15 | for positive speed the negated angle sends the ball towards smaller y exactly when the sine is positive, and rightwards exactly when the cosine is positive |
| `Scenarios.ShotStartIsInit` | momentum_simulation.py:6-21 | the constructor for speed 5 along the x-axis with target (6, 3) |
| `Scenarios.StraightShotAdvance` | momentum_simulation.py:59-65 | friction takes 5 to 4.95, and the white ball moves to 1.0825 |
| `Scenarios.StraightShotFirstStep` | momentum_simulation.py:58-70 | the first step of that shot, with no collision |
| `Scenarios.ApproachAdvance` | momentum_simulation.py:59-65 | without friction a ball at speed 12 moves by 0.2 |
| `Scenarios.ContactResolve` | momentum_simulation.py:33-44 | a head-on hit at speed 12 with restitution 0.9 gives velocities (0, 0) and (10.8, 0) |
| `Scenarios.ContactCollide` | momentum_simulation.py:23-44 | the same response on the whole state |
| `Scenarios.HeadOnCollisionStep` | momentum_simulation.py:58-70 | a step that brings the centres 0.2 apart triggers that collision |
| `Scenarios.ContactAdvance` | momentum_simulation.py:62-65 | a ball 0.2 away at speed 12 lands exactly on the other centre |
| `Scenarios.CoincidentCentresFail` | momentum_simulation.py:54-78 | from a hand-placed state, landing on the other centre makes the step and the default 500-step run fail |
| `Scenarios.FastStartIsInit` | momentum_simulation.py:6-21 | the constructor for speed 120 along the x-axis with target (6, 3) |
| `Scenarios.FastShotAdvance` | momentum_simulation.py:59-65 | without friction a ball at speed 120 moves by 2, from (1, 3) onto (3, 3) |
| `Scenarios.FastShotFails` | momentum_simulation.py:23-29 | straight from the constructor, the first step divides by zero and the default 500-step run fails |

## Left out

- `plot_simulation` and the matplotlib imports: rendering only, with no logic to model.
- Floating point: the model computes over exact reals. Rounding, overflow, NaN and the
  exact number of steps floats take before the snap are not modelled. The scenarios'
  numbers are exact real results, not what Python prints.
- `math.cos`, `math.sin` and `math.radians`: there is no trigonometry. `Init` takes the
  cosine and sine of the angle as a `Heading`. `Config.angle` is stored but only the
  heading is used.
- `math.sqrt` and `math.hypot`: the step uses the square-free forms. Equivalence with the
  code's forms is proved for the non-negative square roots that `math.sqrt` and
  `math.hypot` return (see above).
- Mutation: the Python object updates its lists in place, and a second call to `simulate`
  continues from the state the first left behind. The model returns that state as
  `Run.final` instead of mutating anything. When a step raises at line 28, the Python
  object keeps the friction and the move of that failing step, and a later `simulate` would
  continue from there. `Failure(CoincidentCentres)` carries no state, so the model does not
  describe that continuation.
- Masses: the code has none, which amounts to equal masses. The energy and momentum laws
  use unit masses.
- `MomentumSimulator.Step`: its own contract states only that the configuration and the
  target are kept. What a step does is stated by `RunLaws.StepOrder`,
  `RunLaws.StepFailsIffCoincident` and the collision and friction laws.

=== FILE: collision.dfy ===
/**
 Laws of the collision response `calculate_new_velocities`
 (momentum_simulation.py). Both balls have the same (unit) mass; `e` is the
 restitution coefficient.
 */
module CollisionLaws {
  import opened RealArith
  import opened Vectors
  import opened MomentumSimulator

  /**
   The square-root-free response used by the step is the code's response:
   for any square root `norm` of |d|^2, d / norm is a unit normal and the
   unit-normal formula along it gives exactly `Resolve(d, ..)`.
   */
  lemma ResolveMatchesUnitNormal(d: Vec2, norm: real, v1: Vec2, v2: Vec2, e: real)
    requires norm > 0.0 && Sq(norm) == NormSq(d)
    ensures d != Zero
    ensures IsUnit(Scale(d, 1.0 / norm))
    ensures ResolveAlong(Scale(d, 1.0 / norm), v1, v2, e) == Resolve(d, v1, v2, e)
  {
    SqPositive(norm);
    NormSqZero(d);
    var n := Scale(d, 1.0 / norm);
    NormSqScale(d, 1.0 / norm);
    SqOfMul(1.0 / norm, norm);
    DivMul(1.0, norm);
    assert IsUnit(n);
    assert d == Scale(n, norm);
    var ra := ResolveAlong(n, v1, v2, e);
    var rr := Resolve(d, v1, v2, e);
    SameComponents(d, n, norm, ra.0, rr.0, v2, v1, e);
    SameComponents(d, n, norm, ra.1, rr.1, v1, v2, e);
  }

  /**
   A vector with normal component `e` times that of `u` and tangential
   component that of `w`, measured along the unit `n`, is the vector with the
   same components measured along d = norm * n.
   */
  lemma SameComponents(d: Vec2, n: Vec2, norm: real, a: Vec2, b: Vec2, u: Vec2, w: Vec2, e: real)
    requires d != Zero && d == Scale(n, norm)
    requires Dot(n, a) == Mul(e, Dot(n, u)) && Dot(Perp(n), a) == Dot(Perp(n), w)
    requires Dot(d, b) == Mul(e, Dot(d, u)) && Dot(Perp(d), b) == Dot(Perp(d), w)
    ensures a == b
  {
    DotScaleLeft(n, norm, a);
    DotScaleLeft(n, norm, u);
    PerpScale(n, norm);
    DotScaleLeft(Perp(n), norm, a);
    DotScaleLeft(Perp(n), norm, w);
    assert Mul(norm, Mul(e, Dot(n, u))) == Mul(e, Mul(norm, Dot(n, u)));
    BasisDetermines(d, a, b);
  }

  /**
   In the code's own terms (unit normal `n`): the collision scales the sum of
   the normal components by `e`, and with e = 1 it exchanges them exactly.
   */
  lemma NormalSum(n: Vec2, v1: Vec2, v2: Vec2, e: real)
    requires IsUnit(n)
    ensures var r := ResolveAlong(n, v1, v2, e);
      Dot(n, r.0) + Dot(n, r.1) == Mul(e, Dot(n, v1) + Dot(n, v2))
    ensures var r := ResolveAlong(n, v1, v2, e);
      e == 1.0 ==> Dot(n, r.0) == Dot(n, v2) && Dot(n, r.1) == Dot(n, v1)
  {
    MulDistributes(e, Dot(n, v1), Dot(n, v2));
  }

  /**
   Newton's law of restitution: after the response the balls separate along
   the normal at `e` times the speed at which they approached.
   */
  lemma RestitutionLaw(d: Vec2, v1: Vec2, v2: Vec2, e: real)
    requires d != Zero
    ensures var r := Resolve(d, v1, v2, e);
      Dot(d, r.1) - Dot(d, r.0) == Mul(e, Dot(d, v1) - Dot(d, v2))
  {
    MulDistributes(e, Dot(d, v1), Dot(d, v2));
  }

  /**
   The total momentum is kept exactly when the collision is elastic (e = 1)
   or the balls' summed normal velocity is zero; the tangential part of the
   momentum is always kept.
   */
  lemma MomentumConservedIff(d: Vec2, v1: Vec2, v2: Vec2, e: real)
    requires d != Zero
    ensures var r := Resolve(d, v1, v2, e);
      Add(r.0, r.1) == Add(v1, v2) <==> e == 1.0 || Dot(d, Add(v1, v2)) == 0.0
  {
    var r := Resolve(d, v1, v2, e);
    var total := Dot(d, Add(v1, v2));
    DotAdd(d, r.0, r.1);
    DotAdd(d, v1, v2);
    DotAdd(Perp(d), r.0, r.1);
    DotAdd(Perp(d), v1, v2);
    MulDistributes(e, Dot(d, v1), Dot(d, v2));
    assert Dot(d, Add(r.0, r.1)) == Mul(e, total);
    if e == 1.0 || total == 0.0 {
      BasisDetermines(d, Add(r.0, r.1), Add(v1, v2));
    }
    if Add(r.0, r.1) == Add(v1, v2) {
      assert Mul(e - 1.0, total) == 0.0;
      MulZero(e - 1.0, total);
    }
  }

  /** Twice the kinetic energy of the two unit-mass balls. */
  function KineticEnergy(v1: Vec2, v2: Vec2): (k: real)
    ensures k >= 0.0
  {
    NormSqNonNegative(v1);
    NormSqNonNegative(v2);
    NormSq(v1) + NormSq(v2)
  }

  /**
   The energy balance of the response, weighted by |d|^2: the collision
   removes the fraction 1 - e^2 of the energy in the normal components and
   leaves the tangential energy alone.
   */
  lemma EnergyBalance(d: Vec2, v1: Vec2, v2: Vec2, e: real)
    requires d != Zero
    ensures var r := Resolve(d, v1, v2, e);
      Mul(NormSq(d), KineticEnergy(r.0, r.1)) + Mul(1.0 - Sq(e), Sq(Dot(d, v1)) + Sq(Dot(d, v2)))
        == Mul(NormSq(d), KineticEnergy(v1, v2))
  {
    var r := Resolve(d, v1, v2, e);
    var q := NormSq(d);
    Lagrange(d, r.0);
    Lagrange(d, r.1);
    Lagrange(d, v1);
    Lagrange(d, v2);
    SqOfMul(e, Dot(d, v2));
    SqOfMul(e, Dot(d, v1));
    MulDistributes(q, NormSq(r.0), NormSq(r.1));
    MulDistributes(q, NormSq(v1), NormSq(v2));
    var normals := Sq(Dot(d, v1)) + Sq(Dot(d, v2));
    MulDistributes(Sq(e), Sq(Dot(d, v1)), Sq(Dot(d, v2)));
    assert Mul(1.0 - Sq(e), normals) == normals - Mul(Sq(e), normals);
  }

  /** With a restitution coefficient in [-1, 1] the collision never creates energy. */
  lemma EnergyNeverGained(d: Vec2, v1: Vec2, v2: Vec2, e: real)
    requires d != Zero
    requires -1.0 <= e <= 1.0
    ensures var r := Resolve(d, v1, v2, e);
      KineticEnergy(r.0, r.1) <= KineticEnergy(v1, v2)
  {
    var r := Resolve(d, v1, v2, e);
    EnergyBalance(d, v1, v2, e);
    SqAtMostOne(e);
    SqNonNegative(Dot(d, v1));
    SqNonNegative(Dot(d, v2));
    MulNonNegative(1.0 - Sq(e), Sq(Dot(d, v1)) + Sq(Dot(d, v2)));
    NormSqPositive(d);
    MulCancel(NormSq(d), KineticEnergy(r.0, r.1), KineticEnergy(v1, v2));
  }

  /**
   The energy is kept exactly when the collision is perfectly elastic
   (e^2 = 1) or neither ball moves along the normal.
   */
  lemma EnergyKeptIff(d: Vec2, v1: Vec2, v2: Vec2, e: real)
    requires d != Zero
    ensures var r := Resolve(d, v1, v2, e);
      (KineticEnergy(r.0, r.1) == KineticEnergy(v1, v2)) ==
      (Sq(e) == 1.0 || (Dot(d, v1) == 0.0 && Dot(d, v2) == 0.0))
  {
    var r := Resolve(d, v1, v2, e);
    var q := NormSq(d);
    var normals := Sq(Dot(d, v1)) + Sq(Dot(d, v2));
    EnergyBalance(d, v1, v2, e);
    NormSqPositive(d);
    MulDistributes(q, KineticEnergy(v1, v2), KineticEnergy(r.0, r.1));
    MulZero(q, KineticEnergy(v1, v2) - KineticEnergy(r.0, r.1));
    MulZero(1.0 - Sq(e), normals);
    SqNonNegative(Dot(d, v1));
    SqNonNegative(Dot(d, v2));
    if Dot(d, v1) != 0.0 {
      SqPositive(Dot(d, v1));
    }
    if Dot(d, v2) != 0.0 {
      SqPositive(Dot(d, v2));
    }
  }

  /**
   The response does not depend on which ball is called white: swapping the
   balls (which reverses the centre-to-centre vector) swaps the results.
   */
  lemma ResolveSymmetric(d: Vec2, v1: Vec2, v2: Vec2, e: real)
    requires d != Zero
    ensures Neg(d) != Zero
    ensures var r := Resolve(d, v1, v2, e);
      Resolve(Neg(d), v2, v1, e) == (r.1, r.0)
  {
    var r := Resolve(d, v1, v2, e);
    assert Neg(d) != Zero;
    var s := Resolve(Neg(d), v2, v1, e);
    DotNeg(d, s.0);
    DotNeg(d, s.1);
    DotNeg(d, v1);
    DotNeg(d, v2);
    DotNeg(Perp(d), s.0);
    DotNeg(Perp(d), s.1);
    DotNeg(Perp(d), v1);
    DotNeg(Perp(d), v2);
    assert Mul(e, -Dot(d, v1)) == -Mul(e, Dot(d, v1));
    assert Mul(e, -Dot(d, v2)) == -Mul(e, Dot(d, v2));
    BasisDetermines(d, s.0, r.1);
    BasisDetermines(d, s.1, r.0);
  }

  /**
   A head-on hit on a ball at rest: the moving ball stops dead and the other
   ball leaves with `e` times its velocity.
   */
  lemma HeadOnHitOnRestingBall(d: Vec2, v: Vec2, e: real)
    requires d != Zero
    requires Dot(Perp(d), v) == 0.0
    ensures Resolve(d, v, Zero, e) == (Zero, Scale(v, e))
  {
    var r := Resolve(d, v, Zero, e);
    DotScaleLeft(v, e, d);
    DotScaleLeft(v, e, Perp(d));
    assert Dot(d, Scale(v, e)) == Dot(Scale(v, e), d);
    assert Dot(Perp(d), Scale(v, e)) == Dot(Scale(v, e), Perp(d));
    assert Dot(d, v) == Dot(v, d) && Dot(Perp(d), v) == Dot(v, Perp(d));
    BasisDetermines(d, r.0, Zero);
    BasisDetermines(d, r.1, Scale(v, e));
  }
}

=== FILE: friction.dfy ===
/**
 Laws of `apply_friction` (momentum_simulation.py): damping by
 (1 - friction) followed by a snap to rest that looks at each axis on its own.
 */
module FrictionLaws {
  import opened RealArith
  import opened Vectors
  import opened MomentumSimulator

  /**
   The snap rule: a velocity whose damped components are both strictly below
   the minimum speed becomes exactly (0, 0); any other velocity is exactly
   the damped one, component by component.
   */
  lemma FrictionSnapRule(v: Vec2, f: real, m: real)
    ensures Abs(Mul(1.0 - f, v.x)) < m && Abs(Mul(1.0 - f, v.y)) < m ==> Friction(v, f, m) == Zero
    ensures !(Abs(Mul(1.0 - f, v.x)) < m && Abs(Mul(1.0 - f, v.y)) < m) ==>
      Friction(v, f, m).x == Mul(1.0 - f, v.x) && Friction(v, f, m).y == Mul(1.0 - f, v.y)
  {
  }

  /**
   The snap is per axis, not by length: when only one damped component is
   below a positive minimum speed, neither component is zeroed and the
   velocity stays non-zero.
   */
  lemma FrictionSnapIsPerAxis(v: Vec2, f: real, m: real)
    requires m > 0.0
    requires (Abs(Mul(1.0 - f, v.x)) < m) != (Abs(Mul(1.0 - f, v.y)) < m)
    ensures Friction(v, f, m) == Scale(v, 1.0 - f)
    ensures Friction(v, f, m) != Zero
  {
    var damped := Scale(v, 1.0 - f);
    assert damped == Vec2(Mul(1.0 - f, v.x), Mul(1.0 - f, v.y));
    assert !BelowMinSpeed(damped, m);
    assert Abs(damped.x) >= m || Abs(damped.y) >= m;
  }

  /**
   A length-based rule would keep this velocity moving (its length exceeds
   the minimum speed); the per-axis rule stops it.
   */
  lemma FrictionSnapIsNotByLength()
    ensures NormSq(Vec2(0.9, 0.9)) > Sq(1.0)
    ensures Friction(Vec2(0.9, 0.9), 0.0, 1.0) == Zero
  {
  }

  /** A ball at rest stays at rest, whatever the coefficients. */
  lemma FrictionOfRest(f: real, m: real)
    ensures Friction(Zero, f, m) == Zero
  {
  }

  /** With a friction coefficient in [0, 1], no component's magnitude grows. */
  lemma FrictionNeverSpeedsUp(v: Vec2, f: real, m: real)
    requires 0.0 <= f <= 1.0
    ensures Abs(Friction(v, f, m).x) <= Abs(v.x)
    ensures Abs(Friction(v, f, m).y) <= Abs(v.y)
  {
    var k := 1.0 - f;
    if !BelowMinSpeed(Scale(v, k), m) {
      assert Friction(v, f, m) == Vec2(Mul(k, v.x), Mul(k, v.y));
      AbsMulAtMost(k, v.x);
      AbsMulAtMost(k, v.y);
    }
  }

  /** With a friction coefficient in (0, 1], every moving ball strictly slows down. */
  lemma FrictionSlowsDown(v: Vec2, f: real, m: real)
    requires 0.0 < f <= 1.0
    requires v != Zero
    ensures NormSq(Friction(v, f, m)) < NormSq(v)
  {
    var k := 1.0 - f;
    NormSqPositive(v);
    if !BelowMinSpeed(Scale(v, k), m) {
      NormSqScale(v, k);
      MulMonotone(k, 1.0, k);
      assert Sq(k) == Mul(k, k);
      SqNonNegative(k);
      MulBelowOne(Sq(k), NormSq(v));
    }
  }

  /** With a friction coefficient in [0, 1], friction never lengthens a velocity. */
  lemma FrictionNormAtMost(v: Vec2, f: real, m: real)
    requires 0.0 <= f <= 1.0
    ensures NormSq(Friction(v, f, m)) <= NormSq(v)
  {
    NormSqNonNegative(v);
    if f > 0.0 && v != Zero {
      FrictionSlowsDown(v, f, m);
    } else if f == 0.0 {
      assert Scale(v, 1.0) == v;
    }
  }

  /** `apply_friction` applied `n` times to one velocity. */
  function FrictionN(v: Vec2, f: real, m: real, n: nat): Vec2
    decreases n
  {
    if n == 0 then v else Friction(FrictionN(v, f, m, n - 1), f, m)
  }

  /** Repeated friction either has snapped the velocity to rest or has damped it by (1 - f)^n. */
  lemma {:induction false} FrictionNShape(v: Vec2, f: real, m: real, n: nat)
    ensures FrictionN(v, f, m, n) == Zero || FrictionN(v, f, m, n) == Scale(v, Pow(1.0 - f, n))
    decreases n
  {
    if n == 0 {
      assert Scale(v, 1.0) == v;
    } else {
      FrictionNShape(v, f, m, n - 1);
      var prev := FrictionN(v, f, m, n - 1);
      if prev == Zero {
        FrictionOfRest(f, m);
      } else {
        DampAgain(v, f, n);
      }
    }
  }

  /** Damping a velocity already damped n - 1 times damps it n times. */
  lemma DampAgain(v: Vec2, f: real, n: nat)
    requires n >= 1
    ensures Scale(Scale(v, Pow(1.0 - f, n - 1)), 1.0 - f) == Scale(v, Pow(1.0 - f, n))
  {
    var k := 1.0 - f;
    var p := Pow(k, n - 1);
    assert Pow(k, n) == Mul(k, p);
    assert Mul(k, Mul(p, v.x)) == Mul(Mul(k, p), v.x);
    assert Mul(k, Mul(p, v.y)) == Mul(Mul(k, p), v.y);
  }

  /** Once the damped components are small enough, the velocity is exactly zero. */
  lemma FrictionNRests(v: Vec2, f: real, m: real, n: nat)
    requires n >= 1
    requires Abs(Mul(Pow(1.0 - f, n), v.x)) < m && Abs(Mul(Pow(1.0 - f, n), v.y)) < m
    ensures FrictionN(v, f, m, n) == Zero
  {
    var prev := FrictionN(v, f, m, n - 1);
    if prev == Zero {
      FrictionOfRest(f, m);
    } else {
      DampedOnceMore(v, f, m, n);
      SnapWhenBelow(prev, f, m, v, Pow(1.0 - f, n));
    }
  }

  /** A velocity still moving after n - 1 steps has been damped exactly n - 1 times. */
  lemma DampedOnceMore(v: Vec2, f: real, m: real, n: nat)
    requires n >= 1
    requires FrictionN(v, f, m, n - 1) != Zero
    ensures Scale(FrictionN(v, f, m, n - 1), 1.0 - f) == Scale(v, Pow(1.0 - f, n))
  {
    FrictionNShape(v, f, m, n - 1);
    DampAgain(v, f, n);
  }

  /** A velocity whose damped value, w scaled by p, has both components below the minimum speed snaps to rest. */
  lemma SnapWhenBelow(v: Vec2, f: real, m: real, w: Vec2, p: real)
    requires Scale(v, 1.0 - f) == Scale(w, p)
    requires Abs(Mul(p, w.x)) < m && Abs(Mul(p, w.y)) < m
    ensures Friction(v, f, m) == Zero
  {
  }

  /**
   A damped quantity eventually drops below any positive bound: with
   N = floor(M / (f m)) + 1 steps, (1 - f)^N * M < m.
   */
  lemma DampedBelow(f: real, m: real, mag: real) returns (n: nat)
    requires 0.0 < f <= 1.0 && m > 0.0 && mag >= 0.0
    ensures n >= 1
    ensures Mul(Pow(1.0 - f, n), mag) < m
  {
    n := StepsBeyond(f, m, mag);
    var nr := n as real;
    Bernoulli(f, n);
    PowNonNegative(1.0 - f, n);
    MulNonNegative(nr, f);
    MulDistributes(m, 1.0, Mul(nr, f));
    assert Mul(m, Mul(nr, f)) == Mul(nr, Mul(f, m));
    ShrunkBelow(Pow(1.0 - f, n), 1.0 + Mul(nr, f), mag, m);
  }

  /** Enough steps of size f m to pass `mag`. */
  lemma StepsBeyond(f: real, m: real, mag: real) returns (n: nat)
    requires 0.0 < f && m > 0.0 && mag >= 0.0
    ensures n >= 1 && Mul(n as real, Mul(f, m)) > mag
  {
    var fm := Mul(f, m);
    MulPositive(f, m);
    var ratio := mag / fm;
    n := ratio.Floor as nat + 1;
    MulStrictMonotone(ratio, n as real, fm);
    assert Mul(ratio, fm) == mag;
  }

  /** If p b <= 1 and mag < m b for a positive b, then p mag < m. */
  lemma ShrunkBelow(p: real, b: real, mag: real, m: real)
    requires p >= 0.0 && b >= 1.0 && mag >= 0.0
    requires Mul(p, b) <= 1.0 && mag < Mul(m, b)
    ensures Mul(p, mag) < m
  {
    MulMonotone(Mul(p, b), 1.0, mag);
    assert Mul(Mul(p, mag), b) == Mul(Mul(p, b), mag);
    MulCommutes(1.0, mag);
    if Mul(p, mag) >= m {
      MulMonotone(m, Mul(p, mag), b);
    }
  }

  /**
   With a friction coefficient in (0, 1] and a positive minimum speed, a ball
   left to itself comes exactly to rest after finitely many steps.
   */
  lemma FrictionEventuallyRests(v: Vec2, f: real, m: real) returns (n: nat)
    requires 0.0 < f <= 1.0 && m > 0.0
    ensures n >= 1 && FrictionN(v, f, m, n) == Zero
  {
    var mag := Abs(v.x) + Abs(v.y);
    n := DampedBelow(f, m, mag);
    var p := Pow(1.0 - f, n);
    PowNonNegative(1.0 - f, n);
    AbsOfMul(p, v.x);
    AbsOfMul(p, v.y);
    MulMonotone(Abs(v.x), mag, p);
    MulMonotone(Abs(v.y), mag, p);
    assert Mul(p, Abs(v.x)) == Mul(Abs(v.x), p) && Mul(p, mag) == Mul(mag, p);
    assert Mul(p, Abs(v.y)) == Mul(Abs(v.y), p);
    FrictionNRests(v, f, m, n);
  }
}

=== FILE: real_arith.dfy ===
/**
 Exact real arithmetic used by the simulator model. Products that later
 lemmas compare against zero are named (`Mul`, `Sq`) so that each sign fact
 is proved once, here, over plain reals.
 */
module RealArith {

  function Mul(a: real, b: real): real {
    a * b
  }

  function Sq(r: real): real {
    r * r
  }

  function Abs(r: real): real {
    if r < 0.0 then -r else r
  }

  lemma MulPositive(a: real, b: real)
    requires a > 0.0 && b > 0.0
    ensures Mul(a, b) > 0.0
  {
  }

  lemma MulNonNegative(a: real, b: real)
    requires a >= 0.0 && b >= 0.0
    ensures Mul(a, b) >= 0.0
  {
  }

  /** Multiplying by a non-negative factor keeps an inequality. */
  lemma MulMonotone(a: real, b: real, c: real)
    requires a <= b && c >= 0.0
    ensures Mul(a, c) <= Mul(b, c)
  {
    MulNonNegative(b - a, c);
    assert Mul(b - a, c) == Mul(b, c) - Mul(a, c);
  }

  /** Multiplying by a positive factor keeps a strict inequality. */
  lemma MulStrictMonotone(a: real, b: real, c: real)
    requires a < b && c > 0.0
    ensures Mul(a, c) < Mul(b, c)
  {
    MulPositive(b - a, c);
    assert Mul(b - a, c) == Mul(b, c) - Mul(a, c);
  }

  lemma MulCommutes(a: real, b: real)
    ensures Mul(a, b) == Mul(b, a)
  {
  }

  /** A product vanishes exactly when one of its factors does. */
  lemma MulZero(a: real, b: real)
    ensures Mul(a, b) == 0.0 <==> a == 0.0 || b == 0.0
  {
    if a != 0.0 && b != 0.0 {
      var pa := if a > 0.0 then a else -a;
      var pb := if b > 0.0 then b else -b;
      MulPositive(pa, pb);
      assert Mul(pa, pb) == Mul(a, b) || Mul(pa, pb) == -Mul(a, b);
    }
  }

  /** Dividing out a positive factor keeps a non-strict inequality. */
  lemma MulCancel(q: real, a: real, b: real)
    requires q > 0.0 && Mul(q, a) <= Mul(q, b)
    ensures a <= b
  {
    if b < a {
      MulStrictMonotone(b, a, q);
      MulCommutes(a, q);
      MulCommutes(b, q);
    }
  }

  lemma MulDistributes(a: real, b: real, c: real)
    ensures Mul(a, b + c) == Mul(a, b) + Mul(a, c)
    ensures Mul(a, b - c) == Mul(a, b) - Mul(a, c)
  {
  }

  lemma SqOfMul(a: real, b: real)
    ensures Sq(Mul(a, b)) == Mul(Sq(a), Sq(b))
  {
  }

  lemma SqNegate(r: real)
    ensures Sq(-r) == Sq(r)
  {
  }

  lemma SqPositive(r: real)
    requires r != 0.0
    ensures Sq(r) > 0.0
  {
    if r > 0.0 {
      MulPositive(r, r);
    } else {
      MulPositive(-r, -r);
      SqNegate(r);
    }
  }

  lemma SqNonNegative(r: real)
    ensures Sq(r) >= 0.0
  {
    if r != 0.0 {
      SqPositive(r);
    }
  }

  /** On the non-negative reals squaring is strictly increasing, in both directions. */
  lemma SqStrictMonotone(a: real, b: real)
    requires a >= 0.0 && b >= 0.0
    ensures a < b <==> Sq(a) < Sq(b)
  {
    assert Sq(b) - Sq(a) == Mul(b - a, b + a);
    if a < b {
      MulPositive(b - a, b + a);
    } else {
      MulNonNegative(a - b, a + b);
      assert Sq(a) - Sq(b) == Mul(a - b, a + b);
    }
  }

  /** Squares of numbers in [-1, 1] are at most 1. */
  lemma SqAtMostOne(r: real)
    requires -1.0 <= r <= 1.0
    ensures Sq(r) <= 1.0
  {
    if r >= 0.0 {
      MulMonotone(r, 1.0, r);
      MulMonotone(r, 1.0, 1.0);
    } else {
      SqNegate(r);
      MulMonotone(-r, 1.0, -r);
      MulMonotone(-r, 1.0, 1.0);
    }
  }

  lemma AbsOfMul(k: real, r: real)
    requires k >= 0.0
    ensures Abs(Mul(k, r)) == Mul(k, Abs(r))
  {
    if r < 0.0 {
      MulNonNegative(k, -r);
      assert Mul(k, -r) == -Mul(k, r);
    } else {
      MulNonNegative(k, r);
    }
  }

  /** A factor in [0, 1] never increases a magnitude. */
  lemma AbsMulAtMost(k: real, r: real)
    requires 0.0 <= k <= 1.0
    ensures Abs(Mul(k, r)) <= Abs(r)
  {
    AbsOfMul(k, r);
    MulMonotone(k, 1.0, Abs(r));
  }

  /** A factor in [0, 1) strictly shrinks a positive quantity. */
  lemma MulBelowOne(k: real, r: real)
    requires 0.0 <= k < 1.0 && r > 0.0
    ensures Mul(k, r) < r
  {
    MulStrictMonotone(k, 1.0, r);
  }

  /** `k` to the power `n`. */
  function Pow(k: real, n: nat): real
    decreases n
  {
    if n == 0 then 1.0 else k * Pow(k, n - 1)
  }

  lemma {:induction false} PowNonNegative(k: real, n: nat)
    requires k >= 0.0
    ensures Pow(k, n) >= 0.0
    decreases n
  {
    if n > 0 {
      PowNonNegative(k, n - 1);
      MulNonNegative(k, Pow(k, n - 1));
    }
  }

  /**
   Bernoulli's inequality in the form used for friction: damping by 1 - f for
   n steps leaves at most 1 / (1 + n f) of a quantity.
   */
  lemma {:induction false} Bernoulli(f: real, n: nat)
    requires 0.0 <= f <= 1.0
    ensures Mul(Pow(1.0 - f, n), 1.0 + Mul(n as real, f)) <= 1.0
    decreases n
  {
    if n > 0 {
      var k := 1.0 - f;
      Bernoulli(f, n - 1);
      PowNonNegative(k, n - 1);
      assert Pow(k, n) == Mul(k, Pow(k, n - 1));
      BernoulliStep(f, (n - 1) as real, Pow(k, n - 1));
    }
  }

  /** One more damping step loses at least as much as the extra f gains. */
  lemma BernoulliStep(f: real, c: real, p: real)
    requires 0.0 <= f <= 1.0 && c >= 0.0 && p >= 0.0
    requires Mul(p, 1.0 + Mul(c, f)) <= 1.0
    ensures Mul(Mul(1.0 - f, p), 1.0 + Mul(c + 1.0, f)) <= 1.0
  {
    var k := 1.0 - f;
    var b := 1.0 + Mul(c + 1.0, f);
    assert Mul(k, b) == 1.0 + Mul(c, f) - Mul(Sq(f), c + 1.0);
    SqNonNegative(f);
    MulNonNegative(Sq(f), c + 1.0);
    MulMonotone(Mul(k, b), 1.0 + Mul(c, f), p);
    assert Mul(Mul(k, p), b) == Mul(Mul(k, b), p);
    MulCommutes(1.0 + Mul(c, f), p);
  }
}

=== FILE: run.dfy ===
/**
 Laws of one iteration of the `simulate` loop and of the whole run
 (momentum_simulation.py): what a step may fail on, what it keeps, and how
 the recorded trajectories line up with the states the steps pass through.
 */
module RunLaws {
  import opened RealArith
  import opened Vectors
  import opened MomentumSimulator
  import opened FrictionLaws
  import opened CollisionLaws

  // ---------------------------------------------------------------- one step

  /** A move keeps the velocity, and 60 times the displacement is exactly the velocity. */
  lemma MoveByVelocity(b: Ball)
    ensures Move(b).vel == b.vel
    ensures Scale(Sub(Move(b).pos, b.pos), StepsPerTimeUnit) == b.vel
  {
  }

  /**
   The square-free overlap test is the code's test: for the true distance
   `dist` between the centres, dist < 2 * radius exactly when the squared
   distance is below (2 * radius)^2.
   */
  lemma OverlapMatchesDistance(white: Ball, black: Ball, dist: real)
    requires dist >= 0.0 && Sq(dist) == NormSq(Sub(white.pos, black.pos))
    ensures dist < 2.0 * BallRadius <==> Overlapping(white, black)
  {
    SqStrictMonotone(dist, 2.0 * BallRadius);
  }

  /**
   `Advance` damps each velocity by friction and then moves each ball by the
   damped velocity: 60 times each displacement is the new velocity.
   */
  lemma AdvanceMovesByDamped(s: Simulator)
    ensures Advance(s).white.vel == Friction(s.white.vel, s.cfg.friction, s.cfg.minSpeed)
    ensures Advance(s).black.vel == Friction(s.black.vel, s.cfg.friction, s.cfg.minSpeed)
    ensures Scale(Sub(Advance(s).white.pos, s.white.pos), StepsPerTimeUnit) == Advance(s).white.vel
    ensures Scale(Sub(Advance(s).black.pos, s.black.pos), StepsPerTimeUnit) == Advance(s).black.vel
    ensures Advance(s).cfg == s.cfg && Advance(s).target == s.target
  {
    var f := s.cfg.friction;
    var m := s.cfg.minSpeed;
    MoveByVelocity(Ball(s.white.pos, Friction(s.white.vel, f, m)));
    MoveByVelocity(Ball(s.black.pos, Friction(s.black.vel, f, m)));
  }

  /**
   The collision response on the whole state fails exactly when the two
   centres coincide; otherwise it leaves both positions alone and gives the
   velocities of `Resolve`.
   */
  lemma CollideFailsIffCoincident(s: Simulator)
    ensures Collide(s).Failure? <==> s.white.pos == s.black.pos
    ensures Collide(s).Ok? ==> Collide(s).value.white.pos == s.white.pos && Collide(s).value.black.pos == s.black.pos
    ensures s.black.pos != s.white.pos ==>
      (Collide(s).value.white.vel, Collide(s).value.black.vel)
      == Resolve(Sub(s.black.pos, s.white.pos), s.white.vel, s.black.vel, s.cfg.restitution)
  {
    if s.white.pos == s.black.pos {
      assert Sub(s.black.pos, s.white.pos) == Zero;
    } else {
      assert Sub(s.black.pos, s.white.pos) != Zero;
    }
  }

  /**
   A step fails exactly when the two centres coincide after moving: such
   balls always overlap, and the collision response then divides by zero.
   */
  lemma StepFailsIffCoincident(s: Simulator)
    ensures Step(s).Failure? <==> Advance(s).white.pos == Advance(s).black.pos
    ensures Advance(s).white.pos == Advance(s).black.pos ==> Overlapping(Advance(s).white, Advance(s).black)
  {
    var moved := Advance(s);
    if moved.white.pos == moved.black.pos {
      assert Sub(moved.white.pos, moved.black.pos) == Zero;
      assert Overlapping(moved.white, moved.black);
    }
  }

  /**
   The order of a step: friction and movement first, then the collision
   response exactly when the moved balls overlap; the response changes
   velocities only, so a successful step leaves both balls where movement
   put them.
   */
  lemma StepOrder(s: Simulator)
    ensures Overlapping(Advance(s).white, Advance(s).black) ==> Step(s) == Collide(Advance(s))
    ensures !Overlapping(Advance(s).white, Advance(s).black) ==> Step(s) == Ok(Advance(s))
    ensures Step(s).Ok? ==> Step(s).value.white.pos == Advance(s).white.pos
    ensures Step(s).Ok? ==> Step(s).value.black.pos == Advance(s).black.pos
  {
  }

  /** Two balls at rest stay at rest: `Resolve` of two zero velocities is zero. */
  lemma ResolveOfRest(d: Vec2, e: real)
    requires d != Zero
    ensures Resolve(d, Zero, Zero, e) == (Zero, Zero)
  {
    var r := Resolve(d, Zero, Zero, e);
    BasisDetermines(d, r.0, Zero);
    BasisDetermines(d, r.1, Zero);
  }

  /** A state at rest with distinct centres is a fixed point of the step. */
  lemma RestIsFixedPoint(s: Simulator)
    requires AtRest(s) && s.white.pos != s.black.pos
    ensures Step(s) == Ok(s)
  {
    FrictionOfRest(s.cfg.friction, s.cfg.minSpeed);
    assert Advance(s) == s;
    var d := Sub(s.black.pos, s.white.pos);
    if d != Zero {
      ResolveOfRest(d, s.cfg.restitution);
    }
  }

  /**
   With friction and restitution coefficients in [0, 1] and [-1, 1], a step
   never increases the kinetic energy of the two balls.
   */
  lemma StepNeverGainsEnergy(s: Simulator)
    requires 0.0 <= s.cfg.friction <= 1.0 && -1.0 <= s.cfg.restitution <= 1.0
    requires Step(s).Ok?
    ensures KineticEnergy(Step(s).value.white.vel, Step(s).value.black.vel)
      <= KineticEnergy(s.white.vel, s.black.vel)
  {
    var moved := Advance(s);
    FrictionNormAtMost(s.white.vel, s.cfg.friction, s.cfg.minSpeed);
    FrictionNormAtMost(s.black.vel, s.cfg.friction, s.cfg.minSpeed);
    if Overlapping(moved.white, moved.black) {
      var d := Sub(moved.black.pos, moved.white.pos);
      EnergyNeverGained(d, moved.white.vel, moved.black.vel, s.cfg.restitution);
    }
  }

  /**
   Without friction, with perfectly elastic collisions and with neither
   moving velocity snapped to rest, a step keeps the total momentum of the
   two balls.
   */
  lemma StepKeepsMomentum(s: Simulator)
    requires s.cfg.friction == 0.0 && s.cfg.restitution == 1.0
    requires s.white.vel == Zero || !BelowMinSpeed(s.white.vel, s.cfg.minSpeed)
    requires s.black.vel == Zero || !BelowMinSpeed(s.black.vel, s.cfg.minSpeed)
    requires Step(s).Ok?
    ensures Add(Step(s).value.white.vel, Step(s).value.black.vel) == Add(s.white.vel, s.black.vel)
  {
    var moved := Advance(s);
    assert Scale(s.white.vel, 1.0) == s.white.vel;
    assert Scale(s.black.vel, 1.0) == s.black.vel;
    assert moved.white.vel == s.white.vel && moved.black.vel == s.black.vel;
    if Overlapping(moved.white, moved.black) {
      var d := Sub(moved.black.pos, moved.white.pos);
      MomentumConservedIff(d, moved.white.vel, moved.black.vel, 1.0);
    }
  }

  // ---------------------------------------------------------------- many steps

  lemma IterateUnfold(step: Transition, s: Simulator, k: nat)
    requires step(s).Ok?
    ensures Iterate(step, s, k + 1) == Iterate(step, step(s).value, k)
  {
  }

  /** A property every successful step preserves holds after any number of steps. */
  lemma {:induction false} IterateKeeps(step: Transition, inv: Simulator -> bool, s: Simulator, k: nat)
    requires inv(s)
    requires forall x :: inv(x) && step(x).Ok? ==> inv(step(x).value)
    ensures Iterate(step, s, k).Ok? ==> inv(Iterate(step, s, k).value)
    decreases k
  {
    if k > 0 && step(s).Ok? {
      IterateKeeps(step, inv, step(s).value, k - 1);
    }
  }

  /** Steps never change the configuration or the target. */
  lemma StepsKeepConfig(s: Simulator, k: nat)
    requires Iterate(Step, s, k).Ok?
    ensures Iterate(Step, s, k).value.cfg == s.cfg && Iterate(Step, s, k).value.target == s.target
  {
    IterateKeeps(Step, (x: Simulator) => x.cfg == s.cfg && x.target == s.target, s, k);
  }

  /** Under the coefficient ranges of `StepNeverGainsEnergy`, energy never grows along a run. */
  lemma StepsNeverGainEnergy(s: Simulator, k: nat)
    requires 0.0 <= s.cfg.friction <= 1.0 && -1.0 <= s.cfg.restitution <= 1.0
    requires Iterate(Step, s, k).Ok?
    ensures KineticEnergy(Iterate(Step, s, k).value.white.vel, Iterate(Step, s, k).value.black.vel)
      <= KineticEnergy(s.white.vel, s.black.vel)
  {
    var inv := (x: Simulator) => x.cfg == s.cfg
      && KineticEnergy(x.white.vel, x.black.vel) <= KineticEnergy(s.white.vel, s.black.vel);
    forall x | inv(x) && Step(x).Ok?
      ensures inv(Step(x).value)
    {
      StepNeverGainsEnergy(x);
    }
    IterateKeeps(Step, inv, s, k);
  }

  /**
   What `RunFrom(step, s, fuel)` records: the positions after steps 1, 2, ...
   in lock-step, no more entries than the fuel, the last state as `final`,
   and an early exit only at the first state at rest.
   */
  predicate Records(step: Transition, s: Simulator, run: Run, fuel: nat) {
    |run.white| == |run.black| <= fuel
    && (fuel > 0 ==> |run.white| >= 1)
    && Iterate(step, s, |run.white|) == Ok(run.final)
    && (forall i :: 0 <= i < |run.white| ==>
          Iterate(step, s, i + 1).Ok?
          && run.white[i] == Iterate(step, s, i + 1).value.white.pos
          && run.black[i] == Iterate(step, s, i + 1).value.black.pos)
    && (|run.white| < fuel ==> AtRest(run.final))
    && (forall j :: 1 <= j < |run.white| ==> Iterate(step, s, j).Ok? && !AtRest(Iterate(step, s, j).value))
  }

  lemma {:induction false} RunFromRecords(step: Transition, s: Simulator, fuel: nat)
    requires RunFrom(step, s, fuel).Ok?
    ensures Records(step, s, RunFrom(step, s, fuel).value, fuel)
    decreases fuel
  {
    if fuel > 0 {
      var next := step(s).value;
      IterateUnfold(step, s, 0);
      if !AtRest(next) {
        var rest := RunFrom(step, next, fuel - 1).value;
        var run := RunFrom(step, s, fuel).value;
        RunFromRecords(step, next, fuel - 1);
        assert run.white == [next.white.pos] + rest.white;
        assert run.black == [next.black.pos] + rest.black;
        forall i | 0 <= i < |run.white|
          ensures Iterate(step, s, i + 1).Ok?
          ensures run.white[i] == Iterate(step, s, i + 1).value.white.pos
          ensures run.black[i] == Iterate(step, s, i + 1).value.black.pos
        {
          IterateUnfold(step, s, i);
          if i > 0 {
            assert run.white[i] == rest.white[i - 1] && run.black[i] == rest.black[i - 1];
          }
        }
        forall j | 1 <= j < |run.white|
          ensures Iterate(step, s, j).Ok? && !AtRest(Iterate(step, s, j).value)
        {
          IterateUnfold(step, s, j - 1);
        }
      }
    }
  }

  /** The conditions under which step k + 1 (counting from 1) is the one that makes a run fail. */
  predicate FailsAt(step: Transition, s: Simulator, k: nat) {
    Iterate(step, s, k).Ok? && step(Iterate(step, s, k).value).Failure?
    && forall j :: 1 <= j <= k ==> Iterate(step, s, j).Ok? && !AtRest(Iterate(step, s, j).value)
  }

  /**
   A failing run names the step that failed: it starts from the state after
   k successful steps, none of which ended at rest.
   */
  lemma {:induction false} RunFromFailure(step: Transition, s: Simulator, fuel: nat) returns (k: nat)
    requires RunFrom(step, s, fuel).Failure?
    ensures k < fuel && FailsAt(step, s, k)
    decreases fuel
  {
    if step(s).Failure? {
      k := 0;
    } else {
      var next := step(s).value;
      var k' := RunFromFailure(step, next, fuel - 1);
      k := k' + 1;
      forall j: nat | j <= k' {
        IterateUnfold(step, s, j);
      }
    }
  }

  /** Conversely, such a failing step within the fuel makes the run fail. */
  lemma {:induction false} RunFromFailsAt(step: Transition, s: Simulator, fuel: nat, k: nat)
    requires k < fuel && FailsAt(step, s, k)
    ensures RunFrom(step, s, fuel).Failure?
    decreases k
  {
    if k > 0 {
      var next := step(s).value;
      forall j: nat | j < k {
        IterateUnfold(step, s, j);
      }
      assert Iterate(step, s, 1) == Ok(next);
      assert !AtRest(next);
      RunFromFailsAt(step, next, fuel - 1, k - 1);
    }
  }

  /**
   The trajectories the loop returns with body `step` and budget `n`:
   equally long, starting with the initial positions, entry i the positions
   after i steps, at most n + 1 entries, shorter only when the balls came to
   rest, and never continuing past the first state at rest.
   */
  predicate Trajectories(step: Transition, s: Simulator, run: Run, n: nat) {
    && |run.white| == |run.black|
    && 1 <= |run.white| <= n + 1
    && run.white[0] == s.white.pos && run.black[0] == s.black.pos
    && (forall i :: 0 <= i < |run.white| ==>
          Iterate(step, s, i).Ok?
          && run.white[i] == Iterate(step, s, i).value.white.pos
          && run.black[i] == Iterate(step, s, i).value.black.pos)
    && Iterate(step, s, |run.white| - 1) == Ok(run.final)
    && (|run.white| < n + 1 ==> AtRest(run.final))
    && (forall j :: 1 <= j < |run.white| - 1 ==> !AtRest(Iterate(step, s, j).value))
  }

  lemma SimulateWithRecords(step: Transition, s: Simulator, steps: int)
    requires SimulateWith(step, s, steps).Ok?
    ensures Trajectories(step, s, SimulateWith(step, s, steps).value, Budget(steps))
  {
    var cont := RunFrom(step, s, Budget(steps)).value;
    RunFromRecords(step, s, Budget(steps));
    StartThenRecords(step, s, cont, Budget(steps));
  }

  /** Putting the starting positions in front of what the loop records gives the trajectories. */
  lemma StartThenRecords(step: Transition, s: Simulator, cont: Run, n: nat)
    requires Records(step, s, cont, n)
    ensures Trajectories(step, s, Run([s.white.pos] + cont.white, [s.black.pos] + cont.black, cont.final), n)
  {
    var run := Run([s.white.pos] + cont.white, [s.black.pos] + cont.black, cont.final);
    assert Iterate(step, s, |run.white| - 1) == Ok(run.final);
    forall j | 1 <= j < |run.white| - 1
      ensures !AtRest(Iterate(step, s, j).value)
    {
      assert j < |cont.white|;
    }
    forall i | 0 <= i < |run.white|
      ensures Iterate(step, s, i).Ok?
      ensures run.white[i] == Iterate(step, s, i).value.white.pos
      ensures run.black[i] == Iterate(step, s, i).value.black.pos
    {
      if i > 0 {
        assert run.white[i] == cont.white[i - 1] && run.black[i] == cont.black[i - 1];
      }
    }
  }

  /** The trajectories `simulate` returns, and the configuration it leaves untouched. */
  lemma SimulateRecords(s: Simulator, steps: int)
    requires Simulate(s, steps).Ok?
    ensures Trajectories(Step, s, Simulate(s, steps).value, Budget(steps))
    ensures Simulate(s, steps).value.final.cfg == s.cfg
    ensures Simulate(s, steps).value.final.target == s.target
  {
    var run := Simulate(s, steps).value;
    SimulateWithRecords(Step, s, steps);
    StepsKeepConfig(s, |run.white| - 1);
  }

  /**
   `simulate` fails exactly when some step within the budget fails before
   the balls have come to rest.
   */
  lemma SimulateFailsIff(s: Simulator, steps: int)
    ensures Simulate(s, steps).Failure? <==> exists k: nat :: k < Budget(steps) && FailsAt(Step, s, k)
  {
    if Simulate(s, steps).Failure? {
      var k := RunFromFailure(Step, s, Budget(steps));
    }
    if exists k: nat :: k < Budget(steps) && FailsAt(Step, s, k) {
      var k: nat :| k < Budget(steps) && FailsAt(Step, s, k);
      RunFromFailsAt(Step, s, Budget(steps), k);
    }
  }

  /** The energy at the end of a run is at most the energy at its start. */
  lemma SimulateNeverGainsEnergy(s: Simulator, steps: int)
    requires 0.0 <= s.cfg.friction <= 1.0 && -1.0 <= s.cfg.restitution <= 1.0
    requires Simulate(s, steps).Ok?
    ensures KineticEnergy(Simulate(s, steps).value.final.white.vel, Simulate(s, steps).value.final.black.vel)
      <= KineticEnergy(s.white.vel, s.black.vel)
  {
    var run := Simulate(s, steps).value;
    SimulateRecords(s, steps);
    StepsNeverGainEnergy(s, |run.white| - 1);
  }

  /** With no steps (or a negative count) only the starting positions are recorded. */
  lemma NoStepsRecordsStart(s: Simulator, steps: int)
    requires steps <= 0
    ensures Simulate(s, steps) == Ok(Run([s.white.pos], [s.black.pos], s))
  {
    assert [s.white.pos] + [] == [s.white.pos];
    assert [s.black.pos] + [] == [s.black.pos];
  }

  /**
   A shot with zero speed leaves both balls at rest: `simulate` records the
   starting positions twice (before the loop and after its first step) and
   stops.
   */
  lemma StillShotStopsAfterOneStep(cfg: Config, h: Heading, target: Vec2, steps: int)
    requires cfg.speed == 0.0 && steps >= 1
    ensures Simulate(Init(cfg, h, target), steps)
      == Ok(Run([WhiteStart, WhiteStart], [BlackStart, BlackStart], Init(cfg, h, target)))
  {
    var s := Init(cfg, h, target);
    assert AtRest(s);
    RestIsFixedPoint(s);
    assert RunFrom(Step, s, Budget(steps)) == Ok(Run([WhiteStart], [BlackStart], s));
    assert Simulate(s, steps) == Prepend([WhiteStart], [BlackStart], RunFrom(Step, s, Budget(steps)));
    assert [WhiteStart] + [WhiteStart] == [WhiteStart, WhiteStart];
    assert [BlackStart] + [BlackStart] == [BlackStart, BlackStart];
  }
}

=== FILE: scenarios.dfy ===
/**
 Concrete runs of the simulator, computed exactly over the reals.
 */
module Scenarios {
  import opened Vectors
  import opened MomentumSimulator
  import opened CollisionLaws

  /** A straight shot at speed 5 with restitution 0.9 and friction and minimum speed 0.01. */
  const Shot: Config := Config(5.0, 0.0, 0.9, 0.01, 0.01)

  /** The simulator for `Shot` aimed along the x-axis at (6, 3). */
  const ShotStart: Simulator := Simulator(Shot, Vec2(6.0, 3.0), Ball(WhiteStart, Vec2(5.0, 0.0)), Ball(BlackStart, Zero))

  /** The constructor flips the target (6, 3) onto itself and launches the white ball at (5, 0). */
  lemma ShotStartIsInit()
    ensures Init(Shot, Heading(1.0, 0.0), Vec2(6.0, 3.0)) == ShotStart
  {
  }

  /** Friction with coefficient 0.01 takes (5, 0) to (4.95, 0) and leaves a ball at rest alone. */
  lemma ShotFriction()
    ensures Friction(Vec2(5.0, 0.0), 0.01, 0.01) == Vec2(4.95, 0.0)
    ensures Friction(Zero, 0.01, 0.01) == Zero
  {
    assert Scale(Vec2(5.0, 0.0), 0.99) == Vec2(4.95, 0.0);
    assert !BelowMinSpeed(Vec2(4.95, 0.0), 0.01);
    assert Scale(Zero, 0.99) == Zero;
  }

  /**
   Friction takes the white ball's velocity from 5 to 4.95, it moves by
   4.95 / 60 = 0.0825, and the black ball stays where it is.
   */
  lemma StraightShotAdvance()
    ensures Advance(ShotStart) == ShotStart.(white := Ball(Vec2(1.0825, 3.0), Vec2(4.95, 0.0)))
  {
    ShotFriction();
    assert Move(Ball(WhiteStart, Vec2(4.95, 0.0))) == Ball(Vec2(1.0825, 3.0), Vec2(4.95, 0.0));
    assert Move(Ball(BlackStart, Zero)) == Ball(BlackStart, Zero);
  }

  /** After the first step of the straight shot the balls are too far apart to collide. */
  lemma StraightShotFirstStep()
    ensures Step(ShotStart) == Ok(ShotStart.(white := Ball(Vec2(1.0825, 3.0), Vec2(4.95, 0.0))))
  {
    StraightShotAdvance();
    FarApart();
  }

  /** Centres 1.9175 apart on a horizontal line do not overlap. */
  lemma FarApart()
    ensures !Overlapping(Ball(Vec2(1.0825, 3.0), Vec2(4.95, 0.0)), Ball(BlackStart, Zero))
  {
    assert Sub(Vec2(1.0825, 3.0), BlackStart) == Vec2(-1.9175, 0.0);
  }

  /** A white ball 0.4 to the left of a resting black ball, moving right at 12, without friction. */
  const Approach: Simulator := Simulator(
    Config(12.0, 0.0, 0.9, 0.0, 0.01), Vec2(6.0, 3.0),
    Ball(Vec2(2.6, 3.0), Vec2(12.0, 0.0)), Ball(BlackStart, Zero))

  /** The approach after its first movement, the centres 0.2 apart. */
  const Contact: Simulator := Approach.(white := Ball(Vec2(2.8, 3.0), Vec2(12.0, 0.0)))

  /** Without friction the white ball moves by 12 / 60 = 0.2, to 0.2 from the black centre. */
  lemma ApproachAdvance()
    ensures Advance(Approach) == Contact
  {
    assert Friction(Vec2(12.0, 0.0), 0.0, 0.01) == Vec2(12.0, 0.0);
    assert Friction(Zero, 0.0, 0.01) == Zero;
    assert Move(Ball(Vec2(2.6, 3.0), Vec2(12.0, 0.0))) == Ball(Vec2(2.8, 3.0), Vec2(12.0, 0.0));
    assert Move(Ball(BlackStart, Zero)) == Ball(BlackStart, Zero);
  }

  /** The response to a head-on hit at 12 on a resting ball, with restitution 0.9. */
  lemma ContactResolve()
    ensures Resolve(Vec2(0.2, 0.0), Vec2(12.0, 0.0), Zero, 0.9) == (Zero, Vec2(10.8, 0.0))
  {
    HeadOnHitOnRestingBall(Vec2(0.2, 0.0), Vec2(12.0, 0.0), 0.9);
    assert Scale(Vec2(12.0, 0.0), 0.9) == Vec2(10.8, 0.0);
  }

  /** The white ball stops dead and the black ball leaves at 0.9 * 12 = 10.8. */
  lemma ContactCollide()
    ensures Collide(Contact) == Ok(Approach.(
      white := Ball(Vec2(2.8, 3.0), Zero),
      black := Ball(BlackStart, Vec2(10.8, 0.0))))
  {
    ContactResolve();
  }

  /** A head-on collision: after moving, the centres are 0.2 < 0.3 apart and the balls collide. */
  lemma HeadOnCollisionStep()
    ensures Step(Approach) == Ok(Approach.(
      white := Ball(Vec2(2.8, 3.0), Zero),
      black := Ball(BlackStart, Vec2(10.8, 0.0))))
  {
    ApproachAdvance();
    assert Sub(Contact.white.pos, Contact.black.pos) == Vec2(-0.2, 0.0);
    assert Overlapping(Contact.white, Contact.black);
    ContactCollide();
  }

  /** From the contact position the white ball moves onto the black ball's centre. */
  lemma ContactAdvance()
    ensures Advance(Contact) == Contact.(white := Ball(BlackStart, Vec2(12.0, 0.0)))
  {
    assert Friction(Vec2(12.0, 0.0), 0.0, 0.01) == Vec2(12.0, 0.0);
    assert Friction(Zero, 0.0, 0.01) == Zero;
    assert Move(Ball(Vec2(2.8, 3.0), Vec2(12.0, 0.0))) == Ball(BlackStart, Vec2(12.0, 0.0));
    assert Move(Ball(BlackStart, Zero)) == Ball(BlackStart, Zero);
  }

  /**
   Started from the contact position instead (with no collision having
   happened), the white ball lands exactly on the black ball's centre;
   the collision response then divides by zero and the whole run fails.
   */
  lemma CoincidentCentresFail()
    ensures Step(Contact) == Failure(CoincidentCentres)
    ensures Simulate(Contact, DefaultSteps) == Failure(CoincidentCentres)
  {
    ContactAdvance();
    var moved := Advance(Contact);
    assert Sub(moved.white.pos, moved.black.pos) == Zero;
    assert Overlapping(moved.white, moved.black);
  }

  /** A straight shot at speed 120, without friction. */
  const FastShot: Config := Config(120.0, 0.0, 0.9, 0.0, 0.01)

  /** The simulator for `FastShot` aimed along the x-axis at (6, 3). */
  const FastStart: Simulator := Simulator(FastShot, Vec2(6.0, 3.0), Ball(WhiteStart, Vec2(120.0, 0.0)), Ball(BlackStart, Zero))

  lemma FastStartIsInit()
    ensures Init(FastShot, Heading(1.0, 0.0), Vec2(6.0, 3.0)) == FastStart
  {
  }

  /** In one step the white ball moves by 120 / 60 = 2, from (1, 3) exactly onto the black centre (3, 3). */
  lemma FastShotAdvance()
    ensures Advance(FastStart) == FastStart.(white := Ball(BlackStart, Vec2(120.0, 0.0)))
  {
    assert Friction(Vec2(120.0, 0.0), 0.0, 0.01) == Vec2(120.0, 0.0);
    assert Friction(Zero, 0.0, 0.01) == Zero;
    assert Move(Ball(WhiteStart, Vec2(120.0, 0.0))) == Ball(BlackStart, Vec2(120.0, 0.0));
    assert Move(Ball(BlackStart, Zero)) == Ball(BlackStart, Zero);
  }

  /**
   The fault is reachable from the constructor: a shot at speed 120 along the
   x-axis lands on the black centre in the first step, so the first step and
   the default 500-step run both fail.
   */
  lemma FastShotFails()
    ensures Step(Init(FastShot, Heading(1.0, 0.0), Vec2(6.0, 3.0))) == Failure(CoincidentCentres)
    ensures Simulate(Init(FastShot, Heading(1.0, 0.0), Vec2(6.0, 3.0)), DefaultSteps) == Failure(CoincidentCentres)
  {
    FastStartIsInit();
    FastShotAdvance();
    var moved := Advance(FastStart);
    assert Sub(moved.white.pos, moved.black.pos) == Zero;
    assert Overlapping(moved.white, moved.black);
  }
}

=== FILE: setup.dfy ===
/**
 Laws of the constructor of `MomentumSimulator` (momentum_simulation.py):
 the target's vertical flip and the launch velocity.
 */
module SetupLaws {
  import opened RealArith
  import opened Vectors
  import opened MomentumSimulator

  /** Flipping the target twice gives it back, so the stored target determines the caller's. */
  lemma FlipYInvolution(p: Vec2)
    ensures FlipY(FlipY(p)) == p
    ensures p.y == TableHeight / 2.0 <==> FlipY(p) == p
  {
  }

  /**
   For a genuine heading (cos^2 + sin^2 = 1) the launch velocity has length
   |speed|: the angle only chooses the direction.
   */
  lemma LaunchSpeed(speed: real, h: Heading)
    requires Sq(h.cos) + Sq(h.sin) == 1.0
    ensures NormSq(LaunchVelocity(speed, h)) == Sq(speed)
  {
    var v := LaunchVelocity(speed, h);
    assert v.x == Mul(speed, h.cos) && v.y == Mul(speed, -h.sin);
    SqOfMul(speed, h.cos);
    SqOfMul(speed, -h.sin);
    SqNegate(h.sin);
    MulDistributes(Sq(speed), Sq(h.cos), Sq(h.sin));
  }

  /**
   The launch angle is measured clockwise in the simulation's frame: an angle
   whose sine is positive sends the white ball towards smaller y, which the
   target flip maps to larger y in the caller's frame.
   */
  lemma LaunchDirection(speed: real, h: Heading)
    requires speed > 0.0
    ensures h.sin > 0.0 <==> LaunchVelocity(speed, h).y < 0.0
    ensures h.cos > 0.0 <==> LaunchVelocity(speed, h).x > 0.0
  {
    if h.sin > 0.0 {
      MulPositive(speed, h.sin);
    } else {
      MulNonNegative(speed, -h.sin);
    }
    if h.cos > 0.0 {
      MulPositive(speed, h.cos);
    } else {
      MulNonNegative(speed, -h.cos);
    }
  }
}

=== FILE: simulator.dfy ===
/**
 The two-ball momentum simulator (class `MomentumSimulator` of
 momentum_simulation.py), modelled as pure functions over immutable state.

 One step damps both velocities by friction (snapping a velocity to rest when
 both of its damped components are below the minimum speed), moves both
 centres by velocity / 60, and, when the balls overlap, exchanges the normal
 components of their velocities scaled by the restitution coefficient.
 `Simulate` repeats the step, recording both centres in lock-step, and stops
 early once both balls are at rest.

 Square roots are not modelled: the overlap test compares squared distances
 and the collision response divides by the squared length of the
 centre-to-centre vector instead of normalising it (the two are equal over
 the reals; see CollisionLaws). Trigonometry is not modelled either: the
 cosine and sine of the launch angle are inputs.
 */
module MomentumSimulator {
  import opened RealArith
  import opened Vectors

  /** Radius of both balls. */
  const BallRadius: real := 0.15
  /** Simulation steps per unit of time: each step moves a ball by velocity / 60. */
  const StepsPerTimeUnit: real := 60.0
  /** Height of the table, used to flip the target's y-coordinate. */
  const TableHeight: real := 6.0
  /** The step budget `simulate` uses when none is given. */
  const DefaultSteps: int := 500

  const WhiteStart: Vec2 := Vec2(1.0, 3.0)
  const BlackStart: Vec2 := Vec2(3.0, 3.0)

  datatype Ball = Ball(pos: Vec2, vel: Vec2)

  /**
   The cosine and sine of the launch angle (the input angle converted to
   radians). They are supplied from outside because the model has no
   trigonometry.
   */
  datatype Heading = Heading(cos: real, sin: real)

  /** The simulator's inputs, stored unchanged for the lifetime of a run. */
  datatype Config = Config(
    speed: real,
    angle: real,
    restitution: real,
    friction: real,
    minSpeed: real)

  datatype Simulator = Simulator(cfg: Config, target: Vec2, white: Ball, black: Ball)

  /**
   The one way a run can fail: the collision response normalises the
   centre-to-centre vector, and Python raises ZeroDivisionError when the two
   centres coincide.
   */
  datatype Fault = CoincidentCentres

  datatype Result<T> = Ok(value: T) | Failure(fault: Fault)

  /** What `simulate` leaves behind: both trajectories and the simulator's state after the last step. */
  datatype Run = Run(white: seq<Vec2>, black: seq<Vec2>, final: Simulator)

  // ---------------------------------------------------------------- construction

  /** Converts between the caller's and the simulation's vertical convention. */
  function FlipY(p: Vec2): Vec2 {
    Vec2(p.x, TableHeight - p.y)
  }

  /**
   The white ball's launch velocity: speed times (cos(-a), sin(-a)), written
   with cos(-a) = cos(a) and sin(-a) = -sin(a).
   */
  function LaunchVelocity(speed: real, h: Heading): Vec2 {
    Vec2(speed * h.cos, speed * -h.sin)
  }

  /** The constructor: white ball at (1, 3) with the launch velocity, black ball at rest at (3, 3). */
  function Init(cfg: Config, h: Heading, target: Vec2): (s: Simulator)
    ensures s.white.pos == WhiteStart && s.black.pos == BlackStart
    ensures s.black.vel == Zero
    ensures s.white.vel == LaunchVelocity(cfg.speed, h)
    ensures FlipY(s.target) == target
    ensures s.cfg == cfg
  {
    Simulator(cfg, FlipY(target), Ball(WhiteStart, LaunchVelocity(cfg.speed, h)), Ball(BlackStart, Zero))
  }

  // ---------------------------------------------------------------- one step

  /** Both damped components strictly below the minimum speed, each on its own axis. */
  predicate BelowMinSpeed(v: Vec2, minSpeed: real) {
    Abs(v.x) < minSpeed && Abs(v.y) < minSpeed
  }

  /** `apply_friction`: damp by (1 - friction), then snap to rest per axis. */
  function Friction(v: Vec2, friction: real, minSpeed: real): Vec2 {
    var damped := Scale(v, 1.0 - friction);
    if BelowMinSpeed(damped, minSpeed) then Zero else damped
  }

  /** Euler position update: one step moves the centre by velocity / 60. */
  function Move(b: Ball): Ball {
    Ball(Vec2(b.pos.x + b.vel.x / StepsPerTimeUnit, b.pos.y + b.vel.y / StepsPerTimeUnit), b.vel)
  }

  /** The overlap test `distance < 2 * radius`, squared on both sides. */
  predicate Overlapping(white: Ball, black: Ball) {
    NormSq(Sub(white.pos, black.pos)) < Sq(2.0 * BallRadius)
  }

  /** The vector with components `a` along `d` and `b` along `Perp(d)`, each weighted by |d|^2. */
  function Combine(d: Vec2, a: real, b: real): Vec2 {
    Add(Scale(d, a), Scale(Perp(d), b))
  }

  lemma CombineComponents(d: Vec2, a: real, b: real)
    ensures Dot(d, Combine(d, a, b)) == Mul(a, NormSq(d))
    ensures Dot(Perp(d), Combine(d, a, b)) == Mul(b, NormSq(d))
  {
  }

  /** Along a unit normal, the vector a n + b Perp(n) has normal component a and tangential component b. */
  lemma AlongUnit(n: Vec2, a: real, b: real)
    requires IsUnit(n)
    ensures Dot(n, Vec2(a * n.x + b * Perp(n).x, a * n.y + b * Perp(n).y)) == a
    ensures Dot(Perp(n), Vec2(a * n.x + b * Perp(n).x, a * n.y + b * Perp(n).y)) == b
  {
    assert Vec2(a * n.x + b * Perp(n).x, a * n.y + b * Perp(n).y) == Combine(n, a, b);
    CombineComponents(n, a, b);
  }

  /**
   The collision response of `calculate_new_velocities` for a given unit
   normal `n` (from the white centre towards the black one) and tangent
   t = (-n.y, n.x): each ball's normal component becomes the other ball's,
   scaled by the restitution coefficient `e`; tangential components are kept.
   */
  function ResolveAlong(n: Vec2, v1: Vec2, v2: Vec2, e: real): (r: (Vec2, Vec2))
    requires IsUnit(n)
    ensures Dot(n, r.0) == Mul(e, Dot(n, v2))
    ensures Dot(n, r.1) == Mul(e, Dot(n, v1))
    ensures Dot(Perp(n), r.0) == Dot(Perp(n), v1)
    ensures Dot(Perp(n), r.1) == Dot(Perp(n), v2)
  {
    var t := Perp(n);
    var v1n := Dot(n, v1);
    var v1t := Dot(t, v1);
    var v2n := Dot(n, v2);
    var v2t := Dot(t, v2);
    var v1nFinal := v2n * e;
    var v2nFinal := v1n * e;
    var w := Vec2(v1nFinal * n.x + v1t * t.x, v1nFinal * n.y + v1t * t.y);
    var b := Vec2(v2nFinal * n.x + v2t * t.x, v2nFinal * n.y + v2t * t.y);
    AlongUnit(n, v1nFinal, v1t);
    AlongUnit(n, v2nFinal, v2t);
    (w, b)
  }

  /**
   The same response computed from the unnormalised centre-to-centre vector
   `d`: every term of the unit-normal formula carries two factors of
   1 / |d|, so it is one division by |d|^2 and needs no square root.
   */
  function Resolve(d: Vec2, v1: Vec2, v2: Vec2, e: real): (r: (Vec2, Vec2))
    requires d != Zero
    ensures Dot(d, r.0) == Mul(e, Dot(d, v2))
    ensures Dot(d, r.1) == Mul(e, Dot(d, v1))
    ensures Dot(Perp(d), r.0) == Dot(Perp(d), v1)
    ensures Dot(Perp(d), r.1) == Dot(Perp(d), v2)
  {
    NormSqPositive(d);
    var q := NormSq(d);
    var t := Perp(d);
    var v1n := Dot(d, v1);
    var v1t := Dot(t, v1);
    var v2n := Dot(d, v2);
    var v2t := Dot(t, v2);
    var w := Combine(d, Mul(e, v2n) / q, v1t / q);
    var b := Combine(d, Mul(e, v1n) / q, v2t / q);
    CombineComponents(d, Mul(e, v2n) / q, v1t / q);
    CombineComponents(d, Mul(e, v1n) / q, v2t / q);
    DivMul(Mul(e, v2n), q);
    DivMul(Mul(e, v1n), q);
    DivMul(v1t, q);
    DivMul(v2t, q);
    (w, b)
  }

  /** `calculate_new_velocities` on the whole state; positions are left alone. */
  function Collide(s: Simulator): Result<Simulator> {
    var d := Sub(s.black.pos, s.white.pos);
    if d == Zero then
      Failure(CoincidentCentres)
    else
      var r := Resolve(d, s.white.vel, s.black.vel, s.cfg.restitution);
      Ok(s.(white := s.white.(vel := r.0), black := s.black.(vel := r.1)))
  }

  /** Friction on both velocities, then both centres moved with the damped velocities. */
  function Advance(s: Simulator): Simulator {
    var f := s.cfg.friction;
    var m := s.cfg.minSpeed;
    s.(white := Move(Ball(s.white.pos, Friction(s.white.vel, f, m))),
       black := Move(Ball(s.black.pos, Friction(s.black.vel, f, m))))
  }

  /** The body of the `simulate` loop up to the recording of positions. */
  function Step(s: Simulator): (r: Result<Simulator>)
    ensures r.Ok? ==> r.value.cfg == s.cfg && r.value.target == s.target
  {
    var moved := Advance(s);
    if Overlapping(moved.white, moved.black) then Collide(moved) else Ok(moved)
  }

  /** The loop's exit test: both velocities exactly (0, 0). */
  predicate AtRest(s: Simulator) {
    s.white.vel == Zero && s.black.vel == Zero
  }

  // ---------------------------------------------------------------- the run

  /** `range(steps)` is empty for a negative step count. */
  function Budget(steps: int): nat {
    if steps < 0 then 0 else steps
  }

  /**
   One iteration of a loop body over the simulator's state. The loop
   skeleton below is written for any such body so that its laws are proved
   once, independently of the physics; `simulate` uses `Step`.
   */
  type Transition = Simulator -> Result<Simulator>

  /** `k` applications of `step` from `s`, ignoring the exit test. */
  function Iterate(step: Transition, s: Simulator, k: nat): Result<Simulator>
    decreases k
  {
    if k == 0 then Ok(s)
    else
      match step(s)
      case Failure(f) => Failure(f)
      case Ok(next) => Iterate(step, next, k - 1)
  }

  /** Puts already-recorded positions in front of the rest of a run. */
  function Prepend(white: seq<Vec2>, black: seq<Vec2>, rest: Result<Run>): Result<Run> {
    match rest
    case Failure(f) => Failure(f)
    case Ok(run) => Ok(Run(white + run.white, black + run.black, run.final))
  }

  /**
   At most `fuel` further iterations of the loop from `s`, recording the
   positions after each step and leaving the loop after a step that ends at rest.
   */
  function RunFrom(step: Transition, s: Simulator, fuel: nat): Result<Run>
    decreases fuel
  {
    if fuel == 0 then Ok(Run([], [], s))
    else
      match step(s)
      case Failure(f) => Failure(f)
      case Ok(next) =>
        if AtRest(next) then Ok(Run([next.white.pos], [next.black.pos], next))
        else Prepend([next.white.pos], [next.black.pos], RunFrom(step, next, fuel - 1))
  }

  /** The loop of `simulate(steps)` with body `step`: the trajectories start with the initial positions. */
  function SimulateWith(step: Transition, s: Simulator, steps: int): Result<Run> {
    Prepend([s.white.pos], [s.black.pos], RunFrom(step, s, Budget(steps)))
  }

  /** `simulate(steps)`. */
  function Simulate(s: Simulator, steps: int): Result<Run> {
    SimulateWith(Step, s, steps)
  }

  lemma DivMul(a: real, q: real)
    requires q != 0.0
    ensures Mul(a / q, q) == a
  {
  }

  lemma PrependAppend(white: seq<Vec2>, black: seq<Vec2>, p: Vec2, q: Vec2, rest: Result<Run>)
    ensures Prepend(white, black, Prepend([p], [q], rest)) == Prepend(white + [p], black + [q], rest)
  {
    if rest.Ok? {
      assert white + ([p] + rest.value.white) == (white + [p]) + rest.value.white;
      assert black + ([q] + rest.value.black) == (black + [q]) + rest.value.black;
    }
  }

  /**
   The `simulate` loop as written, for any loop body `step`: append both
   positions after every step and break once both balls are at rest. It
   computes exactly `SimulateWith`.
   */
  method RunLoop(step: Transition, s0: Simulator, steps: int) returns (res: Result<Run>)
    ensures res == SimulateWith(step, s0, steps)
  {
    var s := s0;
    var white := [s0.white.pos];
    var black := [s0.black.pos];
    var n := Budget(steps);
    var i := 0;
    while i < n
      invariant 0 <= i <= n
      invariant SimulateWith(step, s0, steps) == Prepend(white, black, RunFrom(step, s, n - i))
    {
      var next := step(s);
      if next.Failure? {
        return Failure(next.fault);
      }
      PrependAppend(white, black, next.value.white.pos, next.value.black.pos, RunFrom(step, next.value, n - i - 1));
      s := next.value;
      white := white + [s.white.pos];
      black := black + [s.black.pos];
      if AtRest(s) {
        break;
      }
      i := i + 1;
    }
    assert RunFrom(step, s, 0) == Ok(Run([], [], s));
    assert white + [] == white && black + [] == black;
    return Ok(Run(white, black, s));
  }

  /** `simulate(steps)` as a loop: `RunLoop` with the simulator's own step. It computes exactly `Simulate`. */
  method SimulateLoop(s0: Simulator, steps: int) returns (res: Result<Run>)
    ensures res == Simulate(s0, steps)
  {
    res := RunLoop(Step, s0, steps);
  }
}

=== FILE: vectors.dfy ===
/**
 Planar vectors over the exact reals: the positions and velocities of the two
 balls. The Python code keeps these as two-element lists updated index by
 index; here they are immutable values.
 */
module Vectors {
  import opened RealArith

  datatype Vec2 = Vec2(x: real, y: real)

  const Zero: Vec2 := Vec2(0.0, 0.0)

  function Add(a: Vec2, b: Vec2): Vec2 {
    Vec2(a.x + b.x, a.y + b.y)
  }

  function Sub(a: Vec2, b: Vec2): Vec2 {
    Vec2(a.x - b.x, a.y - b.y)
  }

  function Neg(a: Vec2): Vec2 {
    Vec2(-a.x, -a.y)
  }

  function Scale(a: Vec2, k: real): Vec2 {
    Vec2(k * a.x, k * a.y)
  }

  function Dot(a: Vec2, b: Vec2): real {
    a.x * b.x + a.y * b.y
  }

  /** The squared Euclidean length; the model never takes a square root. */
  function NormSq(a: Vec2): real {
    Sq(a.x) + Sq(a.y)
  }

  /** `a` rotated by 90 degrees counter-clockwise: the tangent belonging to a normal. */
  function Perp(a: Vec2): Vec2 {
    Vec2(-a.y, a.x)
  }

  predicate IsUnit(n: Vec2) {
    NormSq(n) == 1.0
  }

  lemma NormSqNonNegative(a: Vec2)
    ensures NormSq(a) >= 0.0
  {
    SqNonNegative(a.x);
    SqNonNegative(a.y);
  }

  lemma NormSqPositive(a: Vec2)
    requires a != Zero
    ensures NormSq(a) > 0.0
  {
    SqNonNegative(a.x);
    SqNonNegative(a.y);
    if a.x != 0.0 {
      SqPositive(a.x);
    } else {
      SqPositive(a.y);
    }
  }

  /** Only the zero vector has length zero. */
  lemma NormSqZero(a: Vec2)
    ensures NormSq(a) == 0.0 <==> a == Zero
  {
    if a != Zero {
      NormSqPositive(a);
    }
  }

  lemma NormSqScale(a: Vec2, k: real)
    ensures NormSq(Scale(a, k)) == Mul(Sq(k), NormSq(a))
  {
  }

  lemma DotAdd(a: Vec2, b: Vec2, c: Vec2)
    ensures Dot(a, Add(b, c)) == Dot(a, b) + Dot(a, c)
  {
  }

  lemma DotNeg(a: Vec2, b: Vec2)
    ensures Dot(Neg(a), b) == -Dot(a, b)
    ensures Perp(Neg(a)) == Neg(Perp(a))
  {
  }

  lemma DotScaleLeft(a: Vec2, k: real, b: Vec2)
    ensures Dot(Scale(a, k), b) == Mul(k, Dot(a, b))
  {
  }

  lemma PerpScale(a: Vec2, k: real)
    ensures Perp(Scale(a, k)) == Scale(Perp(a), k)
  {
  }

  /**
   Lagrange's identity in the plane: the squared length of `v`, weighted by that
   of `d`, splits into its squared components along `d` and along `Perp(d)`.
   */
  lemma Lagrange(d: Vec2, v: Vec2)
    ensures Mul(NormSq(d), NormSq(v)) == Sq(Dot(d, v)) + Sq(Dot(Perp(d), v))
  {
  }

  /**
   A non-zero `d` and its rotation form a basis: two vectors with the same
   components along both are equal.
   */
  lemma BasisDetermines(d: Vec2, a: Vec2, b: Vec2)
    requires d != Zero
    requires Dot(d, a) == Dot(d, b)
    requires Dot(Perp(d), a) == Dot(Perp(d), b)
    ensures a == b
  {
    var u, w := a.x - b.x, a.y - b.y;
    assert Mul(NormSq(d), u) == d.x * (Dot(d, a) - Dot(d, b)) - d.y * (Dot(Perp(d), a) - Dot(Perp(d), b));
    assert Mul(NormSq(d), w) == d.y * (Dot(d, a) - Dot(d, b)) + d.x * (Dot(Perp(d), a) - Dot(Perp(d), b));
    NormSqPositive(d);
    assert Mul(NormSq(d), u) == 0.0 && Mul(NormSq(d), w) == 0.0;
  }
}
